=== FILE: README.md ===
# Session, routing and account-store model of the admin console

This project models the decision layer of a small single-page admin console. An
operator logs in with an email and a password and gets an opaque token. The token
lives in memory and in the browser's local storage. With it the operator lists,
creates, updates and deletes account records on a REST backend.

Every framework call is an input or an output of a pure function:

- The server's answer to a call is a `Result` parameter.
- The clock reading is a `nat` parameter.
- The browser's pathname and the configured interviewer name are an `Env` record.
- Toasts, requests, full-page navigations and console logging are returned as an
  ordered event log (`Events.Event`).

Each action is `state × replies → state × settlement × events`.

Modules, one per source file or concern:

- `Types`: the records of `src/types/index.ts`, the shape of a rejected call, and JavaScript truthiness on optional strings.
- `Base64`, `Decimal`: the `btoa`/`atob` encoding (section 4 of RFC 4648) and integer-to-text conversion used to mint the stub's token.
- `AuthApi`: the stub login call.
- `Session`: the session store.
- `Router`: the route table and navigation guard.
- `Endpoints`: the account REST surface.
- `Http`: header injection and the response-error policy of the shared client.
- `AccountStore`: the account store. Its actions run through `Http.Send`, so a 401 during an account action logs out.
- `Scenarios`: flows across the modules.

Where the source's own comments and its code disagree, the model follows the code:

- The stub's comment (src/api/auth.ts:9) says any email and password log in. They do not: `btoa` throws on any character above U+00FF. So an email such as `名@example.com` makes login return `false`, with the generic failure text (`Session.LoginWithStub`).
- On a 401 the forced logout also shows the ordinary "logged out" notification. The expiry warning comes after it (`Http.OnError`).
- The expiry handler checks whether the pathname *contains* `/login`. The guard compares the path exactly (`Scenarios.SubstringVersusExactPath`).

## Model

| member | source | states |
|---|---|---|
| Base64.Btoa | src/api/auth.ts:23 | encoding succeeds exactly when every character is at most U+00FF; the output has 4·⌈n/3⌉ symbols |
| Base64.DecodeEncode | src/api/auth.ts:23 | decoding the base64 text of any byte string gives back those bytes |
| Base64.AtobBtoa | src/api/auth.ts:23 | `atob` undoes `btoa` on every string `btoa` accepts |
| Base64.BtoaNonEmpty | src/api/auth.ts:23 | a non-empty accepted string has a non-empty encoding |
| Decimal.ToNatFromNat | src/api/auth.ts:23 | the decimal text of the timestamp reads back as the same number |
| AuthApi.Login | src/api/auth.ts:13-30 | the stub resolves exactly when both fields are non-empty and the email is Latin-1; an empty field rejects with the fixed message; rejections carry no HTTP response; a non-Latin-1 email rejects with `InvalidCharacterError`; an accepted login's token is exactly `btoa` of `email:now`, is non-empty and decodes back to it |
| AuthApi.SplitAtLastJoin | src/api/auth.ts:23 | splitting `email:digits` at its last colon recovers the email even when it contains colons |
| AuthApi.TokenRoundTrip | src/api/auth.ts:22-29 | an issued token decodes back to exactly the email and the timestamp it was minted from |
| AuthApi.PasswordOnlyValidated | src/api/auth.ts:18-23 | two logins with the same email and any non-empty passwords give the same result: the password never shapes the token |
| Session.AuthenticatedIff | src/stores/auth.ts:17 | the session counts as logged in exactly when a token is present and is not the empty string |
| Session.Init | src/stores/auth.ts:13-14 | on creation the token is the persisted value (None when nothing is stored) and nothing is loading |
| Session.FailureMessage | src/stores/auth.ts:39 | the failure text is the response body's message when that is a non-empty string, and the fixed text in every other case, including a missing response; it is never empty |
| Session.Login | src/stores/auth.ts:24-49 | loading is off on every exit; the result is true exactly for a successful call; success installs the returned token in memory and storage; failure leaves both untouched; exactly one notification, positive on success and carrying the failure text otherwise |
| Session.Logout | src/stores/auth.ts:54-63 | from any state the token is gone from memory and storage, the session is not authenticated, and one info notification is shown |
| Session.LogoutIdempotent | src/stores/auth.ts:54-56 | logging out twice leaves the state logging out once does |
| Session.SyncedPreserved | src/stores/auth.ts:13-56 | login and logout keep memory and storage equal, so a reload restores the same token (or none after logout) |
| Session.LoginWithStub | src/stores/auth.ts:24-48 | with the stub, login succeeds exactly for non-empty fields and a Latin-1 email; success authenticates with a token that decodes to the email and time; failure leaves the session as it was and shows the fixed text |
| Router.Match | src/router/index.ts:10-27 | '/login' is public, '/' requires auth, every other path redirects to '/' |
| Router.ResolveTotal | src/router/index.ts:10-27 | every path resolves to a page: the login page for '/login', the dashboard for anything else |
| Router.Guard | src/router/index.ts:33-47 | a protected target while logged out goes to '/login'; '/login' while logged in goes to '/'; the guard proceeds exactly in the remaining cases |
| Router.Navigate | src/router/index.ts:33-47 | a settled navigation used between one and the budgeted number of guard rounds |
| Router.NavigationSettles | src/router/index.ts:10-47 | from any path, within two guard rounds, a logged-out user lands on the login page and a logged-in user on the dashboard, so there is no redirect loop |
| Router.SettledIsStable | src/router/index.ts:33-47 | the page a navigation settles on is accepted by the guard without redirect |
| Endpoints.RequestFor | src/api/account.ts:12-48 | reads use GET and carry no body; exactly create and update send the form; every path is absolute |
| Endpoints.OperationOfRequestFor | src/api/account.ts:12-48 | each request the table builds maps back to the operation and arguments it came from |
| Endpoints.RequestForInjective | src/api/account.ts:21-48 | distinct operations, and distinct ids within one operation, never share a request |
| Http.WithBearer | src/api/index.ts:21-31 | the Authorization header carries `Bearer <token>` when the token is truthy; otherwise the headers are unchanged; no other header is touched |
| Http.AuthenticatedIffBearer | src/api/index.ts:24-28 | the store's `isAuthenticated` (`!!token`, src/stores/auth.ts:17) holds exactly when the client attaches an Authorization header, so the guard's "logged in" and the client's "sends a bearer" always agree |
| Http.RequestHeaders | src/api/index.ts:10-31 | every request has `Content-Type: application/json` and the interviewer header, and an Authorization header exactly when the token is truthy |
| Http.IncludesIff | src/api/index.ts:53 | the pathname test is the substring relation |
| Http.ErrorMessage | src/api/index.ts:67-70 | the generic text is the body's `message` if non-empty, else its `error` if non-empty, else the default; it is never empty |
| Http.OnError | src/api/index.ts:44-82 | a 401 always logs out: first the logout notification, then, exactly when the pathname does not contain '/login', one expiry warning followed by one relocation to '/login', and nothing else; it never shows the generic message; other failures keep the session and show the generic message exactly when `showError` is not false |
| Http.Send | src/api/index.ts:21-83 | the request carries the session's headers; the reply reaches the caller unchanged (successes pass through, errors are re-rejected); a success emits only the request, a failure emits the request followed by exactly the error policy's effects; the session is either unchanged or logged out |
| AccountStore.FetchAccounts | src/stores/account.ts:20-31 | never rejects; loading is off afterwards; success replaces the list wholesale; failure keeps the old list; exactly one list request is sent; the session and the events are those of the client call (so a 401 logs out and shows the client's notifications), followed on failure by one console log |
| AccountStore.Mutate | src/stores/account.ts:37-92 | `createAccount`, `updateAccount` and `deleteAccount` (`CreateAccount`, `UpdateAccount`, `DeleteAccount`, each `Mutate` on its operation): a failed create/update/delete rejects with its error, leaves the store as it was, and sends nothing more; a successful one emits the client call's events, one success notification, then exactly what `fetchAccounts` emits (one list request with the session's headers and, if it fails, the client's error effects and the console log), and the list is the server's when that fetch succeeds and the old one otherwise; the call's session change and events are exactly the client's, so a 401 on any of the three logs out; a failure adds only its console log |
| AccountStore.ActionsOnlyLogOut | src/stores/account.ts:20-92 | an account action changes the session only by the forced logout, so memory and storage stay equal and a logged-out session stays logged out |
| Scenarios.LoginListDelete | src/stores/account.ts:78-92 | login with `a@b.com`/`x`, list `[Alice]`, delete "1" and re-list `[]`: the list goes from `[Alice]` to `[]` and the session stays authenticated across a reload |
| Scenarios.EmptyEmailRejected | src/api/auth.ts:18-20 | an empty email never logs in and a logged-out session stays logged out |
| Scenarios.ExpiredSessionOnFetch | src/api/index.ts:48-64 | a 401 on the list request keeps the list, clears the session from memory and storage, relocates to '/login', and the next navigation to '/' ends on the login page |
| Scenarios.SubstringVersusExactPath | src/api/index.ts:53 | at '/login/help' a 401 logs out without relocating, while the router treats that path as unknown and sends it to the dashboard |

## Left out

- `src/main.ts`: application and plugin wiring with no behaviour of its own.
- Transport: axios, the base URL and environment lookups. A reply is a `Result` input, and the interviewer name is a field of `Http.Env`.
- The stub's 500 ms delay is left out. `Date.now()` is the `now` parameter.
- Concurrency: each action is atomic. Overlapping fetches, where the last response to arrive wins, are not modelled.
- `isLoading` is visible only in its final state. The transient `true` during a call is not modelled.
- UI effects: toasts keep only their kind and text, not their position. `console.error` keeps its label, not the error object.
- `window.location.href = '/login'` becomes a `Relocate` event. The model does not change `Env.pathname`. A page reload is modelled as `Session.Init` on the stored token, as `Scenarios.ExpiredSessionOnFetch` does.
- Axios header merging is not modelled: per-request header overrides and case-insensitive header names. No call in the core passes its own headers.
- The request interceptor's error branch (src/api/index.ts:32-34) only passes the rejection on. It is not a separate member.
- JavaScript values other than strings in `message`, `error` and `showError` are not modelled. `showError` distinguishes only absent, `false` and `true`.
- `getAccountById` has an entry in `Endpoints`, but no store action calls it, in the source as in the model.
- Router.Match: paths are matched exactly. The router library's default matching also accepts `/LOGIN` and `/login/` for the login record, and the guard's exact comparison would then let a logged-in user through to the login page. That matching is not modelled, and `Router.NavigationSettles` holds only under exact matching.
- Router.ResolveTotal: holds under the exact matching described for Router.Match; under the router library's default matching `/LOGIN` and `/login/` would resolve to the login page.
- Router.NavigationSettles: holds only under exact matching; under the default matching a logged-in user at `/LOGIN` would stay on the login page.
- Base64.Atob: decodes only padded groups of four symbols with no whitespace. The browser's tolerance for whitespace and missing padding is not modelled. Leftover bits in the final group are ignored, as browsers do, so a non-canonical text such as `QR==` also decodes.
- Vue reactivity and Pinia mechanics: `computed` becomes a predicate over the state.

=== FILE: account_store.dfy ===
/** The account store (src/stores/account.ts): the account list as last fetched and
    a loading flag. Every action goes through the shared HTTP client, so it sees and
    may change the session (a 401 logs out); the server's replies are inputs. */
module AccountStore {
  import opened Wrappers
  import opened Types
  import opened Events
  import Endpoints
  import Session
  import Http

  const FetchFailedLog := "取得帳號列表失敗:"
  const CreateSucceeded := "新增帳號成功"
  const UpdateSucceeded := "更新帳號成功"
  const DeleteSucceeded := "刪除帳號成功"
  const CreateFailedLog := "新增帳號失敗:"
  const UpdateFailedLog := "更新帳號失敗:"
  const DeleteFailedLog := "刪除帳號失敗:"

  datatype State = State(accounts: seq<Account>, isLoading: bool)

  /** Store creation: no accounts, not loading. */
  const Initial := State([], false)

  /** Everything an account action reads or changes. */
  datatype Console = Console(session: Session.State, store: State, env: Http.Env)

  /** How an action's promise settles. */
  datatype Settled = Resolved | Rejected(error: ApiError)

  datatype Step = Step(console: Console, settled: Settled, events: seq<Event>)

  /** The request `fetchAccounts` sends. */
  const ListRequest: Endpoints.Request := Endpoints.RequestFor(Endpoints.GetAccounts)

  /** `fetchAccounts`: a successful reply replaces the list wholesale; a failed one
      leaves it as it was and is swallowed after logging. */
  function FetchAccounts(c: Console, reply: Result<seq<Account>, ApiError>): (r: Step)
    ensures r.settled == Resolved
    ensures !r.console.store.isLoading
    ensures reply.Success? ==> r.console.store.accounts == reply.value
    ensures reply.Failure? ==> r.console.store.accounts == c.store.accounts
    ensures r.console.env == c.env
    ensures r.console.session == Http.Send(c.session, c.env, ListRequest, reply).state
    ensures Milestones(r.events) == [Requested(ListRequest)]
    ensures reply.Success? ==> r.events == Http.Send(c.session, c.env, ListRequest, reply).events
    ensures reply.Failure? ==> r.events == Http.Send(c.session, c.env, ListRequest, reply).events + [ConsoleError(FetchFailedLog)]
  {
    var x := Http.Send(c.session, c.env, ListRequest, reply);
    match reply
    case Success(list) =>
      Step(Console(x.state, State(list, false), c.env), Resolved, x.events)
    case Failure(_) =>
      MilestonesAppend(x.events, [ConsoleError(FetchFailedLog)]);
      Step(Console(x.state, c.store.(isLoading := false), c.env), Resolved, x.events + [ConsoleError(FetchFailedLog)])
  }

  function SuccessMessage(op: Endpoints.Operation): string
    requires op.IsMutation()
  {
    match op
    case CreateAccount(_) => CreateSucceeded
    case UpdateAccount(_, _) => UpdateSucceeded
    case DeleteAccount(_) => DeleteSucceeded
  }

  function FailureLog(op: Endpoints.Operation): string
    requires op.IsMutation()
  {
    match op
    case CreateAccount(_) => CreateFailedLog
    case UpdateAccount(_, _) => UpdateFailedLog
    case DeleteAccount(_) => DeleteFailedLog
  }

  /** The common shape of create, update and delete. A failed call is re-thrown and
      touches nothing in the store: one request, no success notification, no fetch.
      A successful one shows exactly one success notification and then fetches
      exactly once; the action resolves whether or not that fetch succeeds, and the
      list is the server's exactly when it does. */
  function Mutate(c: Console, op: Endpoints.Operation, reply: Result<(), ApiError>, refetch: Result<seq<Account>, ApiError>): (r: Step)
    requires op.IsMutation()
    ensures reply.Failure? ==> r.settled == Rejected(reply.error)
    ensures reply.Failure? ==> r.console.store == c.store
    ensures reply.Failure? ==> Milestones(r.events) == [Requested(Endpoints.RequestFor(op))]
    ensures reply.Success? ==> r.settled == Resolved
    ensures reply.Success? ==> !r.console.store.isLoading
    ensures reply.Success? ==> r.console.store.accounts == (if refetch.Success? then refetch.value else c.store.accounts)
    ensures reply.Success? ==>
              Milestones(r.events) == [Requested(Endpoints.RequestFor(op)), Succeeded(SuccessMessage(op)), Requested(ListRequest)]
    ensures r.console.env == c.env
    ensures var x := Http.Send(c.session, c.env, Endpoints.RequestFor(op), reply);
      reply.Failure? ==> r.console.session == x.state && r.events == x.events + [ConsoleError(FailureLog(op))]
    ensures var x := Http.Send(c.session, c.env, Endpoints.RequestFor(op), reply);
      reply.Success? ==>
        r.events == x.events + [Toast(Positive, SuccessMessage(op))] + FetchAccounts(c.(session := x.state), refetch).events
    ensures var x := Http.Send(c.session, c.env, Endpoints.RequestFor(op), reply);
      reply.Success? ==> r.console.session == FetchAccounts(c.(session := x.state), refetch).console.session
    ensures reply.Failure? && Http.IsUnauthorized(reply.error) ==> r.console.session == Session.Logout(c.session).state
  {
    var x := Http.Send(c.session, c.env, Endpoints.RequestFor(op), reply);
    var c1 := c.(session := x.state);
    match reply
    case Failure(e) =>
      MilestonesAppend(x.events, [ConsoleError(FailureLog(op))]);
      Step(c1, Rejected(e), x.events + [ConsoleError(FailureLog(op))])
    case Success(_) =>
      var notify := [Toast(Positive, SuccessMessage(op))];
      var f := FetchAccounts(c1, refetch);
      MilestonesAppend(x.events, notify);
      MilestonesAppend(x.events + notify, f.events);
      Step(f.console, Resolved, x.events + notify + f.events)
  }

  function CreateAccount(c: Console, dto: AccountFormDto, reply: Result<(), ApiError>, refetch: Result<seq<Account>, ApiError>): Step {
    Mutate(c, Endpoints.CreateAccount(dto), reply, refetch)
  }

  function UpdateAccount(c: Console, id: string, dto: AccountFormDto, reply: Result<(), ApiError>, refetch: Result<seq<Account>, ApiError>): Step {
    Mutate(c, Endpoints.UpdateAccount(id, dto), reply, refetch)
  }

  function DeleteAccount(c: Console, id: string, reply: Result<(), ApiError>, refetch: Result<seq<Account>, ApiError>): Step {
    Mutate(c, Endpoints.DeleteAccount(id), reply, refetch)
  }

  /** The only way an account action changes the session is the forced logout on a
      401, so memory and storage stay in step and a logged-out session stays logged out. */
  lemma ActionsOnlyLogOut(c: Console, op: Endpoints.Operation, reply: Result<(), ApiError>, refetch: Result<seq<Account>, ApiError>)
    requires op.IsMutation()
    ensures var s := FetchAccounts(c, refetch).console.session;
      s == c.session || s == Session.Logout(c.session).state
    ensures var s := Mutate(c, op, reply, refetch).console.session;
      s == c.session || s == Session.Logout(c.session).state
    ensures Session.Synced(c.session) ==> Session.Synced(Mutate(c, op, reply, refetch).console.session)
    ensures !Session.IsAuthenticated(c.session) ==> !Session.IsAuthenticated(Mutate(c, op, reply, refetch).console.session)
  {
    var x := Http.Send(c.session, c.env, Endpoints.RequestFor(op), reply);
    if reply.Success? {
      var y := Http.Send(x.state, c.env, ListRequest, refetch);
      assert Session.Logout(x.state).state == Session.Logout(c.session).state;
      assert y.state == x.state || y.state == Session.Logout(x.state).state;
    }
  }
}

=== FILE: auth_api.dfy ===
/** The authentication call (src/api/auth.ts): a local stub that checks both fields
    are filled in and mints a token from the email and the current time. The 500 ms
    delay is left out; the clock reading `Date.now()` is the parameter `now`. */
module AuthApi {
  import opened Wrappers
  import opened Types
  import Base64
  import Decimal

  /** Text of the `Error` thrown when a field is empty. */
  const MissingCredentials := "請輸入電子郵件和密碼"
  /** Name of the exception `btoa` throws on a character above U+00FF. */
  const InvalidCharacter := "InvalidCharacterError"

  /** The text that is base64-encoded into the token: `${email}:${now}`. */
  function TokenText(email: string, now: nat): string {
    email + ":" + Decimal.FromNat(now)
  }

  lemma TokenTextLatin1(email: string, now: nat)
    ensures Base64.Latin1(TokenText(email, now)) <==> Base64.Latin1(email)
  {
    var digits := Decimal.FromNat(now);
    assert Base64.Latin1(":" + digits);
    Base64.Latin1Append(email, ":" + digits);
    assert TokenText(email, now) == email + (":" + digits);
  }

  /** The stub `login`. It rejects (with no HTTP response attached) when the email or
      the password is empty, and when `btoa` throws; otherwise it resolves with a
      non-empty token: the base 64 text of `email:now`, which decodes back to it. */
  function Login(dto: LoginDto, now: nat): (r: Result<LoginResponse, ApiError>)
    ensures r.Success? <==> dto.email != "" && dto.password != "" && Base64.Latin1(dto.email)
    ensures r.Failure? ==> r.error.response.None?
    ensures dto.email == "" || dto.password == "" ==> r == Failure(ApiError(MissingCredentials, None, None))
    ensures r.Success? ==> r.value.token != ""
    ensures r.Success? ==> Base64.Atob(r.value.token) == Some(TokenText(dto.email, now))
    ensures r.Success? ==> Some(r.value.token) == Base64.Btoa(TokenText(dto.email, now))
    ensures dto.email != "" && dto.password != "" && !Base64.Latin1(dto.email) ==>
      r == Failure(ApiError(InvalidCharacter, None, None))
  {
    if dto.email == "" || dto.password == "" then
      Failure(ApiError(MissingCredentials, None, None))
    else
      var text := TokenText(dto.email, now);
      TokenTextLatin1(dto.email, now);
      match Base64.Btoa(text)
      case None => Failure(ApiError(InvalidCharacter, None, None))
      case Some(token) =>
        Base64.BtoaNonEmpty(text);
        Base64.AtobBtoa(text);
        Success(LoginResponse(token))
  }

  /** Splits at the last occurrence of `sep`. */
  function SplitAtLast(s: string, sep: char): (r: Option<(string, string)>)
    ensures r.None? <==> sep !in s
    ensures r.Some? ==> r.value.0 + [sep] + r.value.1 == s && sep !in r.value.1
    decreases |s|
  {
    if |s| == 0 then None
    else if s[|s| - 1] == sep then Some((s[..|s| - 1], ""))
    else
      match SplitAtLast(s[..|s| - 1], sep)
      case None => None
      case Some((front, back)) => Some((front, back + [s[|s| - 1]]))
  }

  /** Splitting at the last separator recovers any front part when the back part has no separator. */
  lemma {:induction false} SplitAtLastJoin(front: string, sep: char, back: string)
    requires sep !in back
    ensures SplitAtLast(front + [sep] + back, sep) == Some((front, back))
    decreases |back|
  {
    var s := front + [sep] + back;
    if |back| == 0 {
      assert s[..|s| - 1] == front;
    } else {
      var shorter := back[..|back| - 1];
      assert s[..|s| - 1] == front + [sep] + shorter;
      assert sep !in shorter by {
        assert forall c :: c in shorter ==> c in back;
      }
      SplitAtLastJoin(front, sep, shorter);
      assert shorter + [s[|s| - 1]] == back;
    }
  }

  /** Reads a token back into the email and the time it was minted from. */
  function ParseToken(token: string): Option<(string, nat)> {
    match Base64.Atob(token)
    case None => None
    case Some(text) =>
      match SplitAtLast(text, ':')
      case None => None
      case Some((email, digits)) =>
        match Decimal.ToNat(digits)
        case None => None
        case Some(n) => Some((email, n))
  }

  /** The token is a reversible encoding of the email and the time. */
  lemma TokenRoundTrip(dto: LoginDto, now: nat)
    requires Login(dto, now).Success?
    ensures ParseToken(Login(dto, now).value.token) == Some((dto.email, now))
  {
    var digits := Decimal.FromNat(now);
    assert ':' !in digits by {
      assert forall c :: c in digits ==> Decimal.IsDigit(c);
    }
    assert TokenText(dto.email, now) == dto.email + [':'] + digits;
    SplitAtLastJoin(dto.email, ':', digits);
    Decimal.ToNatFromNat(now);
  }

  /** The password is only checked for presence: it never shapes the token. */
  lemma PasswordOnlyValidated(a: LoginDto, b: LoginDto, now: nat)
    requires a.email == b.email
    requires a.password != "" && b.password != ""
    ensures Login(a, now) == Login(b, now)
  {
  }
}

=== FILE: base64.dfy ===
/** The base 64 encoding of section 4 of RFC 4648, as the browser's `btoa`/`atob`
    apply it to "binary strings": strings whose characters are all at most U+00FF,
    each character standing for one byte. */
module Base64 {
  import opened Wrappers

  type byte = x: int | 0 <= x < 256
  /** A six-bit group, the value one symbol stands for. */
  type sextet = x: int | 0 <= x < 64

  /** True when every character fits in one byte, the only strings `btoa` accepts. */
  predicate Latin1(s: string) {
    forall i :: 0 <= i < |s| ==> s[i] as int < 256
  }

  lemma Latin1Append(a: string, b: string)
    ensures Latin1(a + b) <==> Latin1(a) && Latin1(b)
  {
    if Latin1(a + b) {
      forall i | 0 <= i < |a| ensures a[i] as int < 256 {
        assert a[i] == (a + b)[i];
      }
      forall i | 0 <= i < |b| ensures b[i] as int < 256 {
        assert b[i] == (a + b)[|a| + i];
      }
    }
  }

  function ToBytes(s: string): (b: seq<byte>)
    requires Latin1(s)
    ensures |b| == |s|
    ensures forall i :: 0 <= i < |s| ==> b[i] == s[i] as int
  {
    seq(|s|, i requires 0 <= i < |s| => s[i] as int)
  }

  function FromBytes(b: seq<byte>): (s: string)
    ensures |s| == |b|
    ensures forall i :: 0 <= i < |b| ==> s[i] as int == b[i]
    ensures Latin1(s)
  {
    seq(|b|, i requires 0 <= i < |b| => b[i] as char)
  }

  lemma FromToBytes(s: string)
    requires Latin1(s)
    ensures FromBytes(ToBytes(s)) == s
  {
  }

  /** Alphabet of RFC 4648 section 4, Table 1: A-Z, a-z, 0-9, '+', '/'. */
  function Symbol(n: sextet): char {
    if n < 26 then ('A' as int + n) as char
    else if n < 52 then ('a' as int + (n - 26)) as char
    else if n < 62 then ('0' as int + (n - 52)) as char
    else if n == 62 then '+'
    else '/'
  }

  /** Inverse of the alphabet; None for the pad character and anything outside it. */
  function SymbolValue(c: char): Option<sextet> {
    if 'A' <= c <= 'Z' then Some(c as int - 'A' as int)
    else if 'a' <= c <= 'z' then Some(c as int - 'a' as int + 26)
    else if '0' <= c <= '9' then Some(c as int - '0' as int + 52)
    else if c == '+' then Some(62)
    else if c == '/' then Some(63)
    else None
  }

  lemma SymbolValueOfSymbol(n: sextet)
    ensures SymbolValue(Symbol(n)) == Some(n)
  {
  }

  /** Symbols never collide with the pad character. */
  lemma SymbolNotPad(n: sextet)
    ensures Symbol(n) != '='
  {
    SymbolValueOfSymbol(n);
  }

  /** The sextets of three bytes: each byte's bits, most significant first, cut into groups of six. */
  function Split0(b0: byte): sextet { b0 / 4 }
  function Split1(b0: byte, b1: byte): sextet { (b0 % 4) * 16 + b1 / 16 }
  function Split2(b1: byte, b2: byte): sextet { (b1 % 16) * 4 + b2 / 64 }
  function Split3(b2: byte): sextet { b2 % 64 }

  /** The bytes of four sextets, regrouping the bits the other way. */
  function Join0(s0: sextet, s1: sextet): byte { s0 * 4 + s1 / 16 }
  function Join1(s1: sextet, s2: sextet): byte { (s1 % 16) * 16 + s2 / 4 }
  function Join2(s2: sextet, s3: sextet): byte { (s2 % 4) * 64 + s3 }

  /** Regrouping the bits of a block and back is the identity, byte by byte. */
  lemma JoinSplit0(b0: byte, b1: byte)
    ensures Join0(Split0(b0), Split1(b0, b1)) == b0
  {
  }

  lemma JoinSplit1(b0: byte, b1: byte, b2: byte)
    ensures Join1(Split1(b0, b1), Split2(b1, b2)) == b1
  {
    var high, low, spill := b1 / 16, b1 % 16, b2 / 64;
    assert b1 == high * 16 + low;
    assert Split1(b0, b1) % 16 == high by {
      assert Split1(b0, b1) == (b0 % 4) * 16 + high;
    }
    assert Split2(b1, b2) / 4 == low by {
      assert Split2(b1, b2) == low * 4 + spill && 0 <= spill < 4;
    }
  }

  lemma JoinSplit2(b1: byte, b2: byte)
    ensures Join2(Split2(b1, b2), Split3(b2)) == b2
  {
  }

  /** Four symbols for three bytes. */
  function EncodeBlock(b0: byte, b1: byte, b2: byte): seq<char> {
    [Symbol(Split0(b0)), Symbol(Split1(b0, b1)), Symbol(Split2(b1, b2)), Symbol(Split3(b2))]
  }

  /** The final, padded group of one or two bytes. */
  function EncodeFinal(b: seq<byte>): (t: seq<char>)
    requires 1 <= |b| <= 2
    ensures |t| == 4
  {
    if |b| == 1 then [Symbol(Split0(b[0])), Symbol(Split1(b[0], 0)), '=', '=']
    else [Symbol(Split0(b[0])), Symbol(Split1(b[0], b[1])), Symbol(Split2(b[1], 0)), '=']
  }

  /** Encoding of a byte string; a final group of one or two bytes is padded with '='. */
  function Encode(b: seq<byte>): (t: seq<char>)
    ensures |t| == 0 <==> |b| == 0
    decreases |b|
  {
    if |b| == 0 then []
    else if |b| <= 2 then EncodeFinal(b)
    else EncodeBlock(b[0], b[1], b[2]) + Encode(b[3..])
  }

  /** Decodes one group of four symbols; padding is accepted only in the final group. */
  function DecodeBlock(c0: char, c1: char, c2: char, c3: char, final: bool): Option<seq<byte>> {
    var v0 := SymbolValue(c0);
    var v1 := SymbolValue(c1);
    var v2 := SymbolValue(c2);
    var v3 := SymbolValue(c3);
    if v0.None? || v1.None? then None
    else if c2 == '=' && c3 == '=' then
      if final then Some([Join0(v0.value, v1.value)]) else None
    else if v2.None? then None
    else if c3 == '=' then
      if final then Some([Join0(v0.value, v1.value), Join1(v1.value, v2.value)]) else None
    else if v3.None? then None
    else Some([Join0(v0.value, v1.value), Join1(v1.value, v2.value), Join2(v2.value, v3.value)])
  }

  function Decode(t: seq<char>): Option<seq<byte>>
    decreases |t|
  {
    if |t| == 0 then Some([])
    else if |t| < 4 then None
    else
      var head := DecodeBlock(t[0], t[1], t[2], t[3], |t| == 4);
      if head.None? then None
      else if |t| == 4 then head
      else
        var tail := Decode(t[4..]);
        if tail.None? then None else Some(head.value + tail.value)
  }

  lemma DecodeEncodeOne(b: seq<byte>)
    requires |b| == 1
    ensures Decode(Encode(b)) == Some(b)
  {
    var s0, s1 := Split0(b[0]), Split1(b[0], 0);
    assert Decode(Encode(b)) == Some([Join0(s0, s1)]) by {
      SymbolValueOfSymbol(s0);
      SymbolValueOfSymbol(s1);
    }
    JoinSplit0(b[0], 0);
    assert b == [b[0]];
  }

  lemma DecodeEncodeTwo(b: seq<byte>)
    requires |b| == 2
    ensures Decode(Encode(b)) == Some(b)
  {
    var s0, s1, s2 := Split0(b[0]), Split1(b[0], b[1]), Split2(b[1], 0);
    assert Decode(Encode(b)) == Some([Join0(s0, s1), Join1(s1, s2)]) by {
      SymbolValueOfSymbol(s0);
      SymbolValueOfSymbol(s1);
      SymbolValueOfSymbol(s2);
      SymbolNotPad(s2);
    }
    JoinSplit0(b[0], b[1]);
    JoinSplit1(b[0], b[1], 0);
    assert b == [b[0], b[1]];
  }

  /** A full group decodes to the three bytes it encodes. */
  lemma DecodeFullBlock(b0: byte, b1: byte, b2: byte, final: bool)
    ensures var t := EncodeBlock(b0, b1, b2); DecodeBlock(t[0], t[1], t[2], t[3], final) == Some([b0, b1, b2])
  {
    var s0, s1, s2, s3 := Split0(b0), Split1(b0, b1), Split2(b1, b2), Split3(b2);
    assert DecodeBlock(Symbol(s0), Symbol(s1), Symbol(s2), Symbol(s3), final)
        == Some([Join0(s0, s1), Join1(s1, s2), Join2(s2, s3)]) by {
      SymbolValueOfSymbol(s0);
      SymbolValueOfSymbol(s1);
      SymbolValueOfSymbol(s2);
      SymbolValueOfSymbol(s3);
      SymbolNotPad(s2);
      SymbolNotPad(s3);
    }
    JoinSplit0(b0, b1);
    JoinSplit1(b0, b1, b2);
    JoinSplit2(b1, b2);
  }

  /** A decodable group followed by a decodable remainder decodes to the concatenation. */
  lemma DecodeConcat(group: seq<char>, rest: seq<char>, head: seq<byte>, tail: seq<byte>)
    requires |group| == 4
    requires DecodeBlock(group[0], group[1], group[2], group[3], |rest| == 0) == Some(head)
    requires Decode(rest) == Some(tail)
    ensures Decode(group + rest) == Some(head + tail)
  {
    var t := group + rest;
    assert t[0] == group[0] && t[1] == group[1] && t[2] == group[2] && t[3] == group[3];
    if |rest| == 0 {
      assert tail == [];
      assert head + tail == head;
    } else {
      assert t[4..] == rest;
    }
  }

  /** Three leading bytes become one full group ahead of the rest. */
  lemma EncodeCons(b0: byte, b1: byte, b2: byte, tail: seq<byte>)
    ensures Encode([b0, b1, b2] + tail) == EncodeBlock(b0, b1, b2) + Encode(tail)
  {
    assert ([b0, b1, b2] + tail)[3..] == tail;
  }

  /** A long input decodes group by group, given that its remainder does. */
  lemma DecodeEncodeStep(b0: byte, b1: byte, b2: byte, tail: seq<byte>)
    requires Decode(Encode(tail)) == Some(tail)
    ensures Decode(Encode([b0, b1, b2] + tail)) == Some([b0, b1, b2] + tail)
  {
    EncodeCons(b0, b1, b2, tail);
    DecodeFullBlock(b0, b1, b2, |Encode(tail)| == 0);
    DecodeConcat(EncodeBlock(b0, b1, b2), Encode(tail), [b0, b1, b2], tail);
  }

  lemma DecodeEncodeShort(b: seq<byte>)
    requires |b| <= 2
    ensures Decode(Encode(b)) == Some(b)
  {
    if |b| == 1 {
      DecodeEncodeOne(b);
    } else if |b| == 2 {
      DecodeEncodeTwo(b);
    }
  }

  lemma SplitThree(b: seq<byte>)
    requires |b| >= 3
    ensures b == [b[0], b[1], b[2]] + b[3..]
  {
  }

  lemma {:induction false} DecodeEncode(b: seq<byte>)
    ensures Decode(Encode(b)) == Some(b)
    decreases |b|
  {
    if |b| <= 2 {
      DecodeEncodeShort(b);
    } else {
      DecodeEncode(b[3..]);
      SplitThree(b);
      DecodeEncodeStep(b[0], b[1], b[2], b[3..]);
    }
  }

  /** Every three bytes, or final part of three, become four symbols. */
  lemma {:induction false} EncodeLength(b: seq<byte>)
    ensures |Encode(b)| == 4 * ((|b| + 2) / 3)
    decreases |b|
  {
    if |b| >= 3 {
      EncodeLength(b[3..]);
    }
  }

  /** `btoa`: None where the browser throws InvalidCharacterError. */
  function Btoa(s: string): (r: Option<string>)
    ensures r.Some? <==> Latin1(s)
    ensures r.Some? ==> |r.value| == 4 * ((|s| + 2) / 3)
  {
    EncodeLength(if Latin1(s) then ToBytes(s) else []);
    if Latin1(s) then Some(Encode(ToBytes(s))) else None
  }

  /** `atob` on padded groups of four; leftover bits of the final group are ignored.
      None where the browser throws. */
  function Atob(t: string): (r: Option<string>)
    ensures r.Some? ==> Latin1(r.value)
  {
    var b := Decode(t);
    if b.None? then None else Some(FromBytes(b.value))
  }

  /** `atob` undoes `btoa`: the encoding is reversible. */
  lemma AtobBtoa(s: string)
    requires Latin1(s)
    ensures Btoa(s).Some? && Atob(Btoa(s).value) == Some(s)
  {
    DecodeEncode(ToBytes(s));
    FromToBytes(s);
  }

  /** A non-empty input gives a non-empty encoding. */
  lemma BtoaNonEmpty(s: string)
    requires Latin1(s) && s != ""
    ensures Btoa(s).Some? && Btoa(s).value != ""
  {
  }
}

=== FILE: decimal.dfy ===
/** JavaScript's conversion of a non-negative integer to its decimal text, as a
    template literal applies it to `Date.now()`, and its inverse. */
module Decimal {
  import opened Wrappers

  predicate IsDigit(c: char) {
    '0' <= c <= '9'
  }

  predicate AllDigits(s: string) {
    forall i :: 0 <= i < |s| ==> IsDigit(s[i])
  }

  function DigitChar(d: nat): (c: char)
    requires d < 10
    ensures IsDigit(c)
  {
    ('0' as int + d) as char
  }

  /** `String(n)`: most significant digit first, no leading zeros. */
  function FromNat(n: nat): (s: string)
    ensures |s| > 0 && AllDigits(s)
    ensures |s| > 1 ==> s[0] != '0'
    decreases n
  {
    if n < 10 then [DigitChar(n)] else FromNat(n / 10) + [DigitChar(n % 10)]
  }

  function DigitsValue(s: string): nat
    requires AllDigits(s)
    decreases |s|
  {
    if |s| == 0 then 0 else DigitsValue(s[..|s| - 1]) * 10 + (s[|s| - 1] as int - '0' as int)
  }

  /** Reads back a non-empty run of digits. */
  function ToNat(s: string): (r: Option<nat>)
    ensures r.Some? <==> |s| > 0 && AllDigits(s)
  {
    if |s| > 0 && AllDigits(s) then Some(DigitsValue(s)) else None
  }

  lemma {:induction false} ToNatFromNat(n: nat)
    ensures ToNat(FromNat(n)) == Some(n)
    decreases n
  {
    if n >= 10 {
      ToNatFromNat(n / 10);
      var s := FromNat(n);
      assert s[..|s| - 1] == FromNat(n / 10);
      assert s[|s| - 1] == DigitChar(n % 10);
      assert DigitsValue(s) == (n / 10) * 10 + n % 10;
    }
  }
}

=== FILE: endpoints.dfy ===
/** The account REST surface (src/api/account.ts): five operations, each mapped to
    an HTTP method, a path and an optional JSON body. Ids are appended to the path
    as they are, without escaping. */
module Endpoints {
  import opened Wrappers
  import opened Types

  datatype Method = GET | POST | PATCH | DELETE

  datatype Body = NoBody | Json(dto: AccountFormDto)

  datatype Request = Request(verb: Method, path: string, body: Body)

  datatype Operation =
    | GetAccounts
    | GetAccountById(id: string)
    | CreateAccount(dto: AccountFormDto)
    | UpdateAccount(id: string, dto: AccountFormDto)
    | DeleteAccount(id: string)
  {
    /** The operations that change data on the server. */
    predicate IsMutation() {
      CreateAccount? || UpdateAccount? || DeleteAccount?
    }
  }

  const AccountsPath := "/accounts"
  const AccountPrefix := "/account/"
  const CreatePath := "/create-account"
  const UpdatePrefix := "/update-account/"
  const DeletePrefix := "/delete-account/"

  /** The request an operation sends. Reads use GET and carry no body; a form is sent
      exactly by create and update; every path starts with '/'. */
  function RequestFor(op: Operation): (r: Request)
    ensures r.verb == GET <==> !op.IsMutation()
    ensures r.body.Json? <==> op.CreateAccount? || op.UpdateAccount?
    ensures r.body.Json? ==> r.body.dto == op.dto
    ensures |r.path| > 0 && r.path[0] == '/'
  {
    match op
    case GetAccounts => Request(GET, AccountsPath, NoBody)
    case GetAccountById(id) => Request(GET, AccountPrefix + id, NoBody)
    case CreateAccount(dto) => Request(POST, CreatePath, Json(dto))
    case UpdateAccount(id, dto) => Request(PATCH, UpdatePrefix + id, Json(dto))
    case DeleteAccount(id) => Request(DELETE, DeletePrefix + id, NoBody)
  }

  /** The id after a fixed prefix, if the path starts with it. */
  function After(prefix: string, path: string): (r: Option<string>)
    ensures r.Some? <==> |prefix| <= |path| && path[..|prefix|] == prefix
    ensures r.Some? ==> prefix + r.value == path
  {
    if |prefix| <= |path| && path[..|prefix|] == prefix then Some(path[|prefix|..]) else None
  }

  /** The server's side of the table: which operation a request denotes, if any. */
  function OperationOf(r: Request): Option<Operation> {
    match r.verb
    case GET =>
      if r.body != NoBody then None
      else if r.path == AccountsPath then Some(GetAccounts)
      else
        var id := After(AccountPrefix, r.path);
        if id.Some? then Some(GetAccountById(id.value)) else None
    case POST =>
      if r.path == CreatePath && r.body.Json? then Some(CreateAccount(r.body.dto)) else None
    case PATCH =>
      var id := After(UpdatePrefix, r.path);
      if id.Some? && r.body.Json? then Some(UpdateAccount(id.value, r.body.dto)) else None
    case DELETE =>
      var id := After(DeletePrefix, r.path);
      if id.Some? && r.body == NoBody then Some(DeleteAccount(id.value)) else None
  }

  /** Every request the table builds names its operation and arguments back. */
  lemma OperationOfRequestFor(op: Operation)
    ensures OperationOf(RequestFor(op)) == Some(op)
  {
    match op
    case GetAccounts =>
    case GetAccountById(id) =>
      var p := AccountPrefix + id;
      assert p[8] == '/' && AccountsPath[8] == 's';
      assert p[..|AccountPrefix|] == AccountPrefix;
    case CreateAccount(dto) =>
    case UpdateAccount(id, dto) =>
      assert (UpdatePrefix + id)[..|UpdatePrefix|] == UpdatePrefix;
    case DeleteAccount(id) =>
      assert (DeletePrefix + id)[..|DeletePrefix|] == DeletePrefix;
  }

  /** Distinct operations, and in particular distinct ids of one operation, give distinct requests. */
  lemma RequestForInjective(a: Operation, b: Operation)
    requires RequestFor(a) == RequestFor(b)
    ensures a == b
  {
    OperationOfRequestFor(a);
    OperationOfRequestFor(b);
  }
}

=== FILE: events.dfy ===
/** What an action does to the outside world, in order: notifications (Quasar
    toasts), requests handed to the transport, full-page navigations and console
    logging. */
module Events {
  import opened Endpoints

  datatype ToastKind = Positive | Negative | Info

  datatype Event =
    | Toast(kind: ToastKind, message: string)
    | Sent(request: Request, headers: map<string, string>)
    | Relocate(href: string)
    | ConsoleError(context: string)

  /** The events a user of the account store can tell apart: requests (without
      their headers) and success notifications. */
  datatype Milestone = Requested(request: Request) | Succeeded(message: string)

  function Milestones(es: seq<Event>): (ms: seq<Milestone>)
    ensures |ms| <= |es|
    decreases |es|
  {
    if |es| == 0 then []
    else
      var rest := Milestones(es[1..]);
      match es[0]
      case Sent(r, _) => [Requested(r)] + rest
      case Toast(Positive, m) => [Succeeded(m)] + rest
      case _ => rest
  }

  lemma {:induction false} MilestonesAppend(a: seq<Event>, b: seq<Event>)
    ensures Milestones(a + b) == Milestones(a) + Milestones(b)
    decreases |a|
  {
    if |a| == 0 {
      assert a + b == b;
    } else {
      assert (a + b)[0] == a[0];
      assert (a + b)[1..] == a[1..] + b;
      MilestonesAppend(a[1..], b);
    }
  }

  /** Events that are neither requests nor success notifications leave no milestone. */
  lemma {:induction false} MilestonesQuiet(es: seq<Event>)
    requires forall i :: 0 <= i < |es| ==> !es[i].Sent? && !(es[i].Toast? && es[i].kind == Positive)
    ensures Milestones(es) == []
    decreases |es|
  {
    if |es| > 0 {
      MilestonesQuiet(es[1..]);
    }
  }
}

=== FILE: http.dfy ===
/** The shared HTTP client (src/api/index.ts): the headers every request carries
    and the policy applied to every failed response. The transport itself, the
    base URL and the environment lookups are outside the model; the server's
    answer is an input. */
module Http {
  import opened Wrappers
  import opened Types
  import opened Events
  import opened Endpoints
  import Session
  import Router

  const ContentType := "Content-Type"
  const JsonMediaType := "application/json"
  const InterviewerHeader := "interviewerName"
  const AuthorizationHeader := "Authorization"
  /** The authentication scheme of section 2.1 of RFC 6750, with its separating space. */
  const BearerPrefix := "Bearer "
  const Unauthorized := 401
  const SessionExpired := "登入已過期，請重新登入"
  const GenericFailure := "發生錯誤，請稍後再試"

  /** What the client reads from its surroundings: the configured interviewer name
      and the browser's current `location.pathname`. */
  datatype Env = Env(interviewerName: string, pathname: string)

  /** The instance's static headers. */
  function DefaultHeaders(env: Env): map<string, string> {
    map[ContentType := JsonMediaType, InterviewerHeader := env.interviewerName]
  }

  /** The credential of a `Bearer` authorization value; None for other values. */
  function BearerCredential(value: string): Option<string> {
    if |BearerPrefix| < |value| && value[..|BearerPrefix|] == BearerPrefix then Some(value[|BearerPrefix|..]) else None
  }

  /** The request interceptor: adds the bearer header when the token is truthy and
      otherwise leaves the headers as configured. */
  function WithBearer(headers: map<string, string>, token: Option<string>): (r: map<string, string>)
    ensures r - {AuthorizationHeader} == headers - {AuthorizationHeader}
    ensures Truthy(token) ==> AuthorizationHeader in r && BearerCredential(r[AuthorizationHeader]) == token
    ensures !Truthy(token) ==> r == headers
  {
    if Truthy(token) then
      var value := BearerPrefix + token.value;
      assert value[..|BearerPrefix|] == BearerPrefix;
      headers[AuthorizationHeader := value]
    else headers
  }

  /** The headers a request leaves with, given the session's in-memory token. */
  function RequestHeaders(env: Env, token: Option<string>): (h: map<string, string>)
    ensures ContentType in h && h[ContentType] == JsonMediaType
    ensures InterviewerHeader in h && h[InterviewerHeader] == env.interviewerName
    ensures AuthorizationHeader in h <==> Truthy(token)
    ensures Truthy(token) ==> h[AuthorizationHeader] == BearerPrefix + token.value
  {
    var d := DefaultHeaders(env);
    var h := WithBearer(d, token);
    assert ContentType in h - {AuthorizationHeader} && InterviewerHeader in h - {AuthorizationHeader};
    assert (h - {AuthorizationHeader})[ContentType] == d[ContentType];
    assert (h - {AuthorizationHeader})[InterviewerHeader] == d[InterviewerHeader];
    h
  }

  /** `haystack.includes(needle)`. */
  predicate Includes(haystack: string, needle: string)
    decreases |haystack|
  {
    if |haystack| < |needle| then false
    else haystack[..|needle|] == needle || Includes(haystack[1..], needle)
  }

  /** `needle` occurs in `haystack` starting at index `i`. */
  ghost predicate OccursAt(haystack: string, needle: string, i: int) {
    0 <= i && i + |needle| <= |haystack| && haystack[i..i + |needle|] == needle
  }

  /** The recursive test agrees with the definition of a substring. */
  lemma {:induction false} IncludesIff(haystack: string, needle: string)
    ensures Includes(haystack, needle) <==> exists i :: OccursAt(haystack, needle, i)
    decreases |haystack|
  {
    if |haystack| >= |needle| {
      if haystack[..|needle|] == needle {
        assert OccursAt(haystack, needle, 0);
      } else if |haystack| == 0 {
      } else {
        var tail := haystack[1..];
        IncludesIff(tail, needle);
        if Includes(tail, needle) {
          var j :| OccursAt(tail, needle, j);
          assert haystack[j + 1..j + 1 + |needle|] == tail[j..j + |needle|];
          assert OccursAt(haystack, needle, j + 1);
        }
        if i :| OccursAt(haystack, needle, i) {
          assert i > 0;
          assert tail[i - 1..i - 1 + |needle|] == haystack[i..i + |needle|];
          assert OccursAt(tail, needle, i - 1);
        }
      }
    }
  }

  /** The two places that test the token agree: the store's `isAuthenticated` holds
      exactly when the client attaches a bearer credential. */
  lemma AuthenticatedIffBearer(s: Session.State, env: Env)
    ensures Session.IsAuthenticated(s) <==> AuthorizationHeader in RequestHeaders(env, s.token)
  {
  }

  predicate IsUnauthorized(e: ApiError) {
    e.response.Some? && e.response.value.status == Unauthorized
  }

  /** The generic failure text: `message || error || GenericFailure`. */
  function ErrorMessage(e: ApiError): (m: string)
    ensures m != ""
    ensures Truthy(ResponseMessage(e)) ==> m == ResponseMessage(e).value
    ensures !Truthy(ResponseMessage(e)) && Truthy(ResponseErrorField(e)) ==> m == ResponseErrorField(e).value
    ensures !Truthy(ResponseMessage(e)) && !Truthy(ResponseErrorField(e)) ==> m == GenericFailure
  {
    OrDefault(Or(ResponseMessage(e), ResponseErrorField(e)), GenericFailure)
  }

  /** The response interceptor's error branch. A 401 logs out and, away from any
      path containing '/login', warns and sends the browser to the login page; any
      other failure shows the generic notification unless the request asked for
      `showError: false`. The caller still receives the rejection. */
  function OnError(s: Session.State, env: Env, e: ApiError): (r: Session.Step)
    ensures IsUnauthorized(e) ==> r.state == Session.Logout(s).state
    ensures IsUnauthorized(e) ==>
      r.events == Session.Logout(s).events +
        (if Includes(env.pathname, Router.LoginPath) then [] else [Toast(Negative, SessionExpired), Relocate(Router.LoginPath)])
    ensures !IsUnauthorized(e) ==> r.state == s
    ensures !IsUnauthorized(e) ==> (r.events != [] <==> e.showError != Some(false))
    ensures !IsUnauthorized(e) && e.showError != Some(false) ==> r.events == [Toast(Negative, ErrorMessage(e))]
  {
    if IsUnauthorized(e) then
      var out := Session.Logout(s);
      if !Includes(env.pathname, Router.LoginPath) then
        Session.Step(out.state, out.events + [Toast(Negative, SessionExpired), Relocate(Router.LoginPath)])
      else out
    else if e.showError != Some(false) then
      Session.Step(s, [Toast(Negative, ErrorMessage(e))])
    else
      Session.Step(s, [])
  }

  /** One call through the client: the request leaves with the session's headers,
      the reply comes back unchanged, and a failure runs the error policy first. */
  datatype Exchange<T> = Exchange(state: Session.State, events: seq<Event>, reply: Result<T, ApiError>)

  function Send<T>(s: Session.State, env: Env, request: Request, reply: Result<T, ApiError>): (r: Exchange<T>)
    ensures r.reply == reply
    ensures |r.events| >= 1 && r.events[0] == Sent(request, RequestHeaders(env, s.token))
    ensures Milestones(r.events) == [Requested(request)]
    ensures reply.Success? ==> r.state == s
    ensures reply.Failure? ==> r.state == OnError(s, env, reply.error).state
    ensures reply.Success? ==> r.events == [Sent(request, RequestHeaders(env, s.token))]
    ensures reply.Failure? ==> r.events == [Sent(request, RequestHeaders(env, s.token))] + OnError(s, env, reply.error).events
    ensures r.state == s || r.state == Session.Logout(s).state
  {
    var sent := [Sent(request, RequestHeaders(env, s.token))];
    match reply
    case Success(_) =>
      assert Milestones(sent) == [Requested(request)];
      Exchange(s, sent, reply)
    case Failure(e) =>
      var out := OnError(s, env, e);
      MilestonesAppend(sent, out.events);
      MilestonesQuiet(out.events);
      Exchange(out.state, sent + out.events, reply)
  }
}

=== FILE: router.dfy ===
/** The route table and the `beforeEach` guard (src/router/index.ts). The guard
    reads only the target and the session's authenticated flag, so it is a function
    of those and returns no new session. */
module Router {
  import opened Wrappers

  const LoginPath := "/login"
  const HomePath := "/"

  /** A record of the table: a page with its `requiresAuth` meta, or a redirect. */
  datatype RouteRecord = Page(name: string, requiresAuth: bool) | Redirect(target: string)

  /** The most specific record a path matches: '/login', '/', otherwise the catch-all. */
  function Match(path: string): (r: RouteRecord)
    ensures r.Page? <==> path == LoginPath || path == HomePath
    ensures r.Page? ==> (r.requiresAuth <==> path == HomePath)
    ensures r.Redirect? ==> r.target == HomePath
  {
    if path == LoginPath then Page("login", false)
    else if path == HomePath then Page("dashboard", true)
    else Redirect(HomePath)
  }

  /** A resolved target: its final path and the page it shows. */
  datatype Location = Location(path: string, name: string, requiresAuth: bool)

  /** Resolution follows a redirect record to the page it names; a redirect that
      lands on another redirect is left unresolved. */
  function Resolve(path: string): Option<Location> {
    match Match(path)
    case Page(name, requiresAuth) => Some(Location(path, name, requiresAuth))
    case Redirect(target) =>
      match Match(target)
      case Page(name, requiresAuth) => Some(Location(target, name, requiresAuth))
      case Redirect(_) => None
  }

  /** Every path resolves to the login page or the dashboard, and only '/login' to the former. */
  lemma ResolveTotal(path: string)
    ensures Resolve(path).Some?
    ensures Resolve(path).value.path == (if path == LoginPath then LoginPath else HomePath)
    ensures Resolve(path).value.requiresAuth <==> path != LoginPath
  {
  }

  /** The guard's verdict: `next()` or `next(path)`. */
  datatype Verdict = Proceed | RedirectTo(path: string)

  function Guard(toPath: string, requiresAuth: bool, authenticated: bool): (v: Verdict)
    ensures requiresAuth && !authenticated ==> v == RedirectTo(LoginPath)
    ensures toPath == LoginPath && authenticated ==> v == RedirectTo(HomePath)
    ensures v.Proceed? <==> !(requiresAuth && !authenticated) && !(toPath == LoginPath && authenticated)
  {
    if requiresAuth && !authenticated then RedirectTo(LoginPath)
    else if toPath == LoginPath && authenticated then RedirectTo(HomePath)
    else Proceed
  }

  /** Where a navigation ends and how many times the guard ran. */
  datatype Landing = Landing(path: string, name: string, rounds: nat)

  /** A navigation: resolve, ask the guard, and follow its redirect, with at most
      `budget` guard rounds; None when the budget runs out first. */
  function Navigate(path: string, authenticated: bool, budget: nat): (r: Option<Landing>)
    ensures r.Some? ==> 1 <= r.value.rounds <= budget
    decreases budget
  {
    if budget == 0 then None
    else
      match Resolve(path)
      case None => None
      case Some(loc) =>
        match Guard(loc.path, loc.requiresAuth, authenticated)
        case Proceed => Some(Landing(loc.path, loc.name, 1))
        case RedirectTo(next) =>
          var rest := Navigate(next, authenticated, budget - 1);
          if rest.None? then None else Some(rest.value.(rounds := rest.value.rounds + 1))
  }

  /** Every navigation settles within two guard rounds: on the login page when
      logged out, on the dashboard when logged in. There is no redirect loop. */
  lemma NavigationSettles(path: string, authenticated: bool)
    ensures var r := Navigate(path, authenticated, 2);
      && r.Some?
      && r.value.path == (if authenticated then HomePath else LoginPath)
      && r.value.name == (if authenticated then "dashboard" else "login")
  {
    ResolveTotal(path);
    ResolveTotal(LoginPath);
    ResolveTotal(HomePath);
  }

  /** The settled page is a fixed point: navigating to it again takes one round. */
  lemma SettledIsStable(path: string, authenticated: bool)
    ensures var r := Navigate(path, authenticated, 2);
      r.Some? && Navigate(r.value.path, authenticated, 1) == Some(r.value.(rounds := 1))
  {
    NavigationSettles(path, authenticated);
  }
}

=== FILE: scenarios.dfy ===
/** Whole-console behaviour: the session, the HTTP policy, the account store and
    the router composed along the flows the application is built for. */
module Scenarios {
  import opened Wrappers
  import opened Types
  import opened Events
  import Session
  import AuthApi
  import Router
  import Http
  import AccountStore

  const Alice := Account("1", "Alice", "a@b.com", ADMIN, ON)

  /** Log in, list one account, delete it, and find the list emptied; the session
      stays authenticated throughout and survives a reload. */
  lemma LoginListDelete(stored: Option<string>, now: nat, env: Http.Env)
    ensures
      var login := Session.Login(Session.Init(stored), AuthApi.Login(LoginDto("a@b.com", "x"), now));
      var listed := AccountStore.FetchAccounts(AccountStore.Console(login.state, AccountStore.Initial, env), Success([Alice]));
      var deleted := AccountStore.DeleteAccount(listed.console, "1", Success(()), Success([]));
      && login.ok
      && listed.console.store.accounts == [Alice]
      && deleted.settled == AccountStore.Resolved
      && deleted.console.store.accounts == []
      && Session.IsAuthenticated(deleted.console.session)
      && Session.IsAuthenticated(Session.Init(deleted.console.session.stored))
  {
    Session.LoginWithStub(Session.Init(stored), LoginDto("a@b.com", "x"), now);
  }

  /** An empty email never logs in, and a logged-out session stays logged out. */
  lemma EmptyEmailRejected(s: Session.State, password: string, now: nat)
    requires !Session.IsAuthenticated(s)
    ensures var r := Session.Login(s, AuthApi.Login(LoginDto("", password), now));
      !r.ok && !Session.IsAuthenticated(r.state) && r.state.stored == s.stored
  {
  }

  /** A list request answered with 401 away from the login page: the list is kept,
      the session is gone from memory and storage, the browser is sent to '/login',
      and the next navigation to the dashboard, before or after the reload, ends on
      the login page. */
  lemma ExpiredSessionOnFetch(c: AccountStore.Console, e: ApiError)
    requires Http.IsUnauthorized(e)
    requires !Http.Includes(c.env.pathname, Router.LoginPath)
    ensures var r := AccountStore.FetchAccounts(c, Failure(e));
      && r.console.store.accounts == c.store.accounts
      && r.console.session.token == None && r.console.session.stored == None
      && Relocate(Router.LoginPath) in r.events
    ensures var r := AccountStore.FetchAccounts(c, Failure(e));
      && Router.Navigate(Router.HomePath, Session.IsAuthenticated(r.console.session), 2).value.path == Router.LoginPath
      && Router.Navigate(Router.HomePath, Session.IsAuthenticated(Session.Init(r.console.session.stored)), 2).value.path == Router.LoginPath
  {
    var r := AccountStore.FetchAccounts(c, Failure(e));
    var x := Http.Send<seq<Account>>(c.session, c.env, AccountStore.ListRequest, Failure(e));
    var out := Http.OnError(c.session, c.env, e);
    assert r.console.session == Session.Logout(c.session).state;
    assert Relocate(Router.LoginPath) in r.events by {
      assert Relocate(Router.LoginPath) in out.events;
      assert x.events == [x.events[0]] + out.events;
      assert r.events == x.events + [ConsoleError(AccountStore.FetchFailedLog)];
    }
    Router.NavigationSettles(Router.HomePath, false);
  }

  /** The expiry handler tests for '/login' as a substring while the guard compares
      the whole path: at '/login/help' a 401 logs out silently, yet the router
      treats that path as unknown and sends it to the dashboard. */
  lemma SubstringVersusExactPath(s: Session.State, e: ApiError)
    requires Http.IsUnauthorized(e)
    ensures var out := Http.OnError(s, Http.Env("", "/login/help"), e);
      && Relocate(Router.LoginPath) !in out.events
      && !Session.IsAuthenticated(out.state)
      && Router.Resolve("/login/help") == Some(Router.Location(Router.HomePath, "dashboard", true))
  {
    assert Http.Includes("/login/help", Router.LoginPath) by {
      assert "/login/help"[..|Router.LoginPath|] == Router.LoginPath;
    }
  }
}

=== FILE: session.dfy ===
/** The session store (src/stores/auth.ts): the token held in memory, its copy in
    the browser's local storage under the key 'token', and a loading flag. */
module Session {
  import opened Wrappers
  import opened Types
  import opened Events
  import AuthApi
  import Base64

  const LoginSucceeded := "登入成功"
  const LoginFailed := "登入失敗，請檢查帳號密碼"
  const LoggedOut := "已成功登出"

  /** `token` is the in-memory value, `stored` the persisted one (None: no entry). */
  datatype State = State(token: Option<string>, stored: Option<string>, isLoading: bool)

  /** A transition together with the events it emitted. */
  datatype Step = Step(state: State, events: seq<Event>)

  datatype LoginResult = LoginResult(state: State, ok: bool, events: seq<Event>)

  /** Store creation on page load: the token is whatever storage holds. */
  function Init(stored: Option<string>): (s: State)
    ensures s.token == stored && s.stored == stored && !s.isLoading
  {
    State(stored, stored, false)
  }

  /** The derived `isAuthenticated` flag: `!!token`. */
  predicate IsAuthenticated(s: State) {
    Truthy(s.token)
  }

  /** Only a present, non-empty token counts: an empty string is logged out. */
  lemma AuthenticatedIff(s: State)
    ensures IsAuthenticated(s) <==> s.token.Some? && s.token.value != ""
    ensures !IsAuthenticated(State(Some(""), Some(""), false))
  {
  }

  /** Memory and storage hold the same token. */
  predicate Synced(s: State) {
    s.token == s.stored
  }

  /** The failure notification's text: the response body's message when it is a
      non-empty string, the fixed text otherwise. */
  function FailureMessage(e: ApiError): (m: string)
    ensures m != ""
    ensures Truthy(ResponseMessage(e)) ==> m == ResponseMessage(e).value
    ensures !Truthy(ResponseMessage(e)) ==> m == LoginFailed
    ensures e.response.None? ==> m == LoginFailed
  {
    OrDefault(ResponseMessage(e), LoginFailed)
  }

  /** `login`, given what the authentication call settled with. It never rejects:
      a failure becomes `false`. */
  function Login(s: State, reply: Result<LoginResponse, ApiError>): (r: LoginResult)
    ensures !r.state.isLoading
    ensures r.ok <==> reply.Success?
    ensures r.ok ==> r.state.token == Some(reply.value.token) && r.state.stored == Some(reply.value.token)
    ensures !r.ok ==> r.state.token == s.token && r.state.stored == s.stored
    ensures reply.Success? ==> r.events == [Toast(Positive, LoginSucceeded)]
    ensures reply.Failure? ==> r.events == [Toast(Negative, FailureMessage(reply.error))]
  {
    match reply
    case Success(response) =>
      LoginResult(State(Some(response.token), Some(response.token), false), true, [Toast(Positive, LoginSucceeded)])
    case Failure(e) =>
      LoginResult(s.(isLoading := false), false, [Toast(Negative, FailureMessage(e))])
  }

  /** `logout`: clears memory and storage, whatever the session was. */
  function Logout(s: State): (r: Step)
    ensures r.state.token == None && r.state.stored == None
    ensures !IsAuthenticated(r.state) && Synced(r.state)
    ensures r.state.isLoading == s.isLoading
    ensures r.events == [Toast(Info, LoggedOut)]
  {
    Step(State(None, None, s.isLoading), [Toast(Info, LoggedOut)])
  }

  /** Logging out twice leaves the same state as logging out once. */
  lemma LogoutIdempotent(s: State)
    ensures Logout(Logout(s).state).state == Logout(s).state
  {
  }

  /** Every transition keeps memory and storage in step, so a page reload
      (`Init` on the stored value) restores the same session. */
  lemma SyncedPreserved(s: State, reply: Result<LoginResponse, ApiError>)
    requires Synced(s)
    ensures Synced(Login(s, reply).state)
    ensures Synced(Logout(s).state)
    ensures Init(Login(s, reply).state.stored).token == Login(s, reply).state.token
    ensures Init(Logout(s).state.stored).token == None
  {
  }

  /** `login` against the stub: it succeeds exactly for filled-in fields whose email
      `btoa` accepts, and then the session is authenticated with a token that decodes
      to the email and the time; otherwise the session is untouched and the
      notification carries the fixed text, since a thrown error has no response. */
  lemma LoginWithStub(s: State, dto: LoginDto, now: nat)
    ensures var r := Login(s, AuthApi.Login(dto, now));
      && (r.ok <==> dto.email != "" && dto.password != "" && Base64.Latin1(dto.email))
      && (r.ok ==> IsAuthenticated(r.state) && Synced(r.state)
                   && AuthApi.ParseToken(r.state.token.value) == Some((dto.email, now)))
      && (!r.ok ==> r.state.token == s.token && r.state.stored == s.stored
                    && r.events == [Toast(Negative, LoginFailed)])
  {
    if AuthApi.Login(dto, now).Success? {
      AuthApi.TokenRoundTrip(dto, now);
    }
  }
}

=== FILE: types.dfy ===
/** The records exchanged with the backend (src/types/index.ts) and the shape of a
    rejected call, plus JavaScript's truthiness on optional strings. */
module Types {
  import opened Wrappers

  datatype RoleLevel = ADMIN
  datatype AccountStatus = ON | OFF

  datatype Account = Account(id: string, name: string, email: string, roleLevel: RoleLevel, status: AccountStatus)

  /** The writable part of an account: everything but the server-assigned id. */
  datatype AccountFormDto = AccountFormDto(name: string, email: string, roleLevel: RoleLevel, status: AccountStatus)

  datatype LoginDto = LoginDto(email: string, password: string)
  datatype LoginResponse = LoginResponse(token: string)

  /** The `response` of a failed HTTP call: its status and the two optional text
      fields of its JSON body. */
  datatype ErrorResponse = ErrorResponse(status: int, message: Option<string>, error: Option<string>)

  /** A rejection. `response` is None for errors that never reached a server (a thrown
      `Error`, a network failure); `showError` is the request config's flag, None when
      the config does not set it. */
  datatype ApiError = ApiError(reason: string, response: Option<ErrorResponse>, showError: Option<bool>)

  /** JavaScript truthiness of a string that may be missing: `null`, `undefined` and `""` are falsy. */
  predicate Truthy(s: Option<string>) {
    s.Some? && s.value != ""
  }

  /** `a || b` on optional strings. */
  function Or(a: Option<string>, b: Option<string>): (r: Option<string>)
    ensures Truthy(r) <==> Truthy(a) || Truthy(b)
    ensures Truthy(a) ==> r == a
  {
    if Truthy(a) then a else b
  }

  /** `a || fallback` with a string literal as the last alternative. */
  function OrDefault(a: Option<string>, fallback: string): (r: string)
    ensures Truthy(a) ==> Some(r) == a
    ensures !Truthy(a) ==> r == fallback
  {
    if Truthy(a) then a.value else fallback
  }

  /** `error.response?.data?.message`: the body's message, if a response exists. */
  function ResponseMessage(e: ApiError): Option<string> {
    if e.response.Some? then e.response.value.message else None
  }

  /** `error.response?.data?.error`. */
  function ResponseErrorField(e: ApiError): Option<string> {
    if e.response.Some? then e.response.value.error else None
  }
}

=== FILE: wrappers.dfy ===
/** Optional values and results: `None` stands for JavaScript's `null`/`undefined`,
    `Failure` for a rejected promise or a thrown error. */
module Wrappers {

  datatype Option<+T> = None | Some(value: T)

  datatype Result<+T, +E> = Success(value: T) | Failure(error: E)
}
